=== FILE: README.md ===
# Codifyr identity and progression pages, modelled in Dafny

This project models the logic inside the five components of the Codifyr
community app that hold any:

- the level-up badge overlay (`XPBadge`);
- the dashboard (`Dashboard`): session bootstrap, profile fetch, sign-out, teardown, the XP bar and the verification gates;
- the verification upload page (`VerificationUpload`): auth check, file intake, submit guard, inserted record, outcome handling;
- the sign-in / sign-up page (`Auth`): mode, toggle, session-driven navigation, outcome reporting;
- the CodeBot chat widget (`CodeBot`): send guard, append-only log, error classification.

Each page is an immutable `State` record with a pure `Step(state, event)`
that returns the next state and the effects it emits, plus a `Run` that
applies a sequence of events. Results from the authentication and data
provider (sessions, profile rows, `{ error }` results, the chat function's
answer) arrive as events. Navigations, toasts and provider calls leave as
effects. React drops state updates to an unmounted component; this is
modelled by `Common.Commit`.

Files:

- `common.dfy`: shared shapes (option, session, outcome, toast, route paths) and JavaScript's `||` on strings.
- `jstext.dfy`: JavaScript's `startsWith`, `includes` and `trim`. `startsWith` and `includes` are proved equal to independent reference definitions (the prefix relation, an occurrence index). `trim` is characterised completely (the slice between whitespace-only ends), and that characterisation is proved to have exactly one solution.
- `xp_badge.dfy`, `dashboard.dfy`, `verification_upload.dfy`, `auth.dfy`, `codebot.dfy`: one module per component.

The code has none of the following, and the model follows it:

- There is no validation in the page's code. The only gating is the browser's own form checks: `required`, and `type="email"` on the e-mail field.
- There is no password reset and no resend-verification flow.
- Provider errors on the auth page are not classified. Their message is shown verbatim.
- Sign-up's e-mail link leads to `/dashboard`.
- A level of 0 or below is not clamped. The badge maps it to the beginner tier. The XP bar multiplies the raw level, so level 0 gives a NaN or infinite percent.

## Model

| member | source | states |
|---|---|---|
| `JsText.StartsWithIsPrefix` | src/pages/VerificationUpload.tsx:52 | `startsWith` holds exactly when the prefix is a prefix of the string |
| `JsText.IncludesIffOccurs` | src/components/CodeBot.tsx:49-52 | `includes` holds exactly when the needle occurs at some index |
| `JsText.TrimStart` | src/components/CodeBot.tsx:36 | leading trim returns a suffix; the dropped part is all whitespace; the result does not start with whitespace |
| `JsText.TrimEnd` | src/components/CodeBot.tsx:36 | trailing trim returns a prefix; the dropped part is all whitespace; the result does not end with whitespace |
| `JsText.Trim` | src/components/CodeBot.tsx:36 | `trim()` is a slice of the input with only whitespace before and after it and non-whitespace at both of its ends; it is empty exactly when every character is whitespace |
| `JsText.TrimUnique` | src/components/CodeBot.tsx:36 | any string trimmed out of the input in that sense is `trim()`'s result, so the characterisation fixes it |
| `JsText.TrimmedBounds` | src/components/CodeBot.tsx:36 | a non-empty trimmed slice starts at the first and ends at the last non-whitespace character |
| `Common.OrElse` | src/pages/VerificationUpload.tsx:101 | JavaScript's logical or of a string and a fallback: the string itself unless it is empty, then the fallback |
| `Common.Commit` | src/pages/Dashboard.tsx:62 | after unmounting, a state update from a settling promise is dropped; while mounted it takes effect |
| `XPBadge.TierOf` | src/components/XPBadge.tsx:11-16 | every integer level lies in exactly one tier's range; the tier's rank is the number of tier ceilings (5, 10, 20) the level exceeds |
| `XPBadge.GetBadgeInfo` | src/components/XPBadge.tsx:11-16 | the title is Beginner Badge iff level <= 5, Rising Coder iff 6..10, Expert Developer iff 11..20, and Master Coder iff >= 21 |
| `XPBadge.TitlesIdentifyTiers` | src/components/XPBadge.tsx:12-15 | two tiers have the same title only if they are the same tier |
| `XPBadge.TierMonotone` | src/components/XPBadge.tsx:12-15 | a higher level never earns a lower-ranked tier |
| `XPBadge.CountPassedMonotone` | src/components/XPBadge.tsx:12-15 | the number of ceilings passed grows with the level, for any list of ceilings |
| `XPBadge.Render` | src/components/XPBadge.tsx:18-21 | nothing is rendered iff `show` is false, whatever the level; otherwise it shows that level's badge |
| `Dashboard.Mount` | src/pages/Dashboard.tsx:24-53 | the page starts with no user or profile, loading, subscribed; it requests the session and subscribes |
| `Dashboard.OnSession` | src/pages/Dashboard.tsx:44-60 | an absent session navigates to /auth and changes nothing; a present one sets the user and fetches that user id's profile |
| `Dashboard.OnProfile` | src/pages/Dashboard.tsx:30-42 | a returned row replaces the profile; no row keeps it; loading ends either way |
| `Dashboard.SignOutThenHome` | src/pages/Dashboard.tsx:65-68 | sign-out calls the provider, then navigates to / |
| `Dashboard.StepResponds` | src/pages/Dashboard.tsx:44-68 | a reported session (a notification only while subscribed) leads to /auth when absent, and when present requests that user's profile and, while mounted, sets the user; a settled query ends loading and shows the returned row; a settled sign-out leads to / |
| `Dashboard.RunAfterUnmount` | src/pages/Dashboard.tsx:53-62 | after teardown no event changes the state and nothing unsubscribes again |
| `Dashboard.RunUnsubscribesOnce` | src/pages/Dashboard.tsx:62 | a mounted page unsubscribes exactly once if torn down, and never otherwise |
| `Dashboard.RunKeepsUser` | src/pages/Dashboard.tsx:44-60 | no event sequence clears a user once set |
| `Dashboard.RunLoadingStaysDone` | src/pages/Dashboard.tsx:26-41 | once loading has ended it never restarts |
| `Dashboard.RunEffectsFollowSessions` | src/pages/Dashboard.tsx:44-67 | profiles are fetched only for user ids of reported sessions; navigation goes only to /auth or / |
| `Dashboard.RunWithoutSessionKeepsUser` | src/pages/Dashboard.tsx:44-60 | events with no present session leave the user unchanged |
| `Dashboard.JsRem` | src/pages/Dashboard.tsx:73 | JavaScript `%`: a == trunc(a/n)*n + r, with r in [0, n) for a >= 0 and in (-n, 0] for a < 0 |
| `Dashboard.PercentOf` | src/pages/Dashboard.tsx:74 | a non-zero divisor gives a finite p with p * whole == part * 100; a zero divisor gives NaN or the infinity of part's sign |
| `Dashboard.ProgressOf` | src/pages/Dashboard.tsx:72-74 | with no profile: 100, 0 and 0 percent; with one: level*100 to go, progress congruent to the score mod 100 and below 100 in magnitude, percent its share |
| `Dashboard.ProgressBounded` | src/pages/Dashboard.tsx:72-74 | for level >= 1 and score >= 0: 0 <= progress < 100 <= xp for next level, and the percent is finite and in [0, 100) |
| `Dashboard.LevelZeroPercentNotFinite` | src/pages/Dashboard.tsx:72-74 | level 0 makes the percent NaN or infinite |
| `Dashboard.Render` | src/pages/Dashboard.tsx:70-216 | nothing while there is no user or loading is true; the Verified badge, an enabled Find Partners button and a hidden Get Verified card each hold iff the profile is approved; rejected shows as pending |
| `VerificationUpload.AcceptsIff` | src/pages/VerificationUpload.tsx:52 | a file type is accepted iff it is application/pdf or starts with image/ |
| `VerificationUpload.OnDrag` | src/pages/VerificationUpload.tsx:35-43 | dragenter/dragover activate the zone, dragleave deactivates it, other types leave it |
| `VerificationUpload.DragActiveIsLastDeciding` | src/pages/VerificationUpload.tsx:38-42 | folding `handleDrag` over any run of drag types leaves the flag true iff the last deciding type was enter or over, else where it started |
| `VerificationUpload.RunDragEvents` | src/pages/VerificationUpload.tsx:35-43 | on the shown form a run of drag events changes only the drop zone's flag, exactly as the fold of `handleDrag`, with no effects |
| `VerificationUpload.DropZoneFollowsLastDrag` | src/pages/VerificationUpload.tsx:35-43 | the page's drop zone after any run of drag events is active iff the last deciding event was enter or over, else as before; nothing else on the page changes |
| `VerificationUpload.LastDecidingCons` | src/pages/VerificationUpload.tsx:38-42 | removing the first drag event changes the last deciding one only if no later event decides |
| `VerificationUpload.Pick` | src/pages/VerificationUpload.tsx:64-77 | only the first file counts; an empty list changes nothing; an accepted file is chosen; a rejected one keeps the choice and raises one invalid-type toast |
| `VerificationUpload.OnDrop` | src/pages/VerificationUpload.tsx:45-62 | a drop always deactivates the zone, then takes the first file if its type is accepted; a rejected first file raises exactly the one invalid-type toast, anything else no effect |
| `VerificationUpload.NewRecord` | src/pages/VerificationUpload.tsx:98-103 | the record has the user's id, file URL pending_upload, status pending, and the description or "Verification certificate" when empty |
| `VerificationUpload.BeginSubmit` | src/pages/VerificationUpload.tsx:79-103 | with no file: one toast, no insert, loading untouched; otherwise loading starts and the record is inserted |
| `VerificationUpload.FailureToast` | src/pages/VerificationUpload.tsx:118-124 | a failure toast carries the error message, or the fallback text when there is none |
| `VerificationUpload.OnForm` | src/pages/VerificationUpload.tsx:247-252 | a submit while loading or without a file (the disabled button) does nothing; otherwise loading starts and the record is inserted |
| `VerificationUpload.StepResponds` | src/pages/VerificationUpload.tsx:23-257 | no session leads to /auth and a session records the user; a settled insert is reported; on the shown form drag, drop, file choice, remove, description and submit each reach their handler |
| `VerificationUpload.SubmitAccepted` | src/pages/VerificationUpload.tsx:79-117 | a submit the provider accepts inserts once, toasts success, goes to /dashboard, and clears the form |
| `VerificationUpload.SubmitRefused` | src/pages/VerificationUpload.tsx:79-127 | a submit the provider refuses inserts once, toasts the failure, and leaves the page exactly as before |
| `VerificationUpload.FinishSubmit` | src/pages/VerificationUpload.tsx:105-127 | success clears the file and description, toasts, and goes to /dashboard; failure keeps both and toasts the error; loading ends |
| `VerificationUpload.SkipGoesToDashboard` | src/pages/VerificationUpload.tsx:130-132 | Skip navigates to /dashboard and changes nothing |
| `VerificationUpload.RunWithoutSession` | src/pages/VerificationUpload.tsx:23-33 | without a session the user is never set, form events are ignored, and the only effect is navigating to /auth |
| `VerificationUpload.RunKeepsFileAccepted` | src/pages/VerificationUpload.tsx:45-103 | a chosen file always has an accepted type; every inserted record has status pending |
| `Auth.Init` | src/pages/Auth.tsx:14-19 | sign-up mode iff the mode query parameter is "signup"; empty fields, not loading |
| `Auth.OnSession` | src/pages/Auth.tsx:23-35 | a present session navigates to /dashboard; an absent one does nothing |
| `Auth.BeginSubmit` | src/pages/Auth.tsx:40-66 | loading starts; sign-up sends the full name and origin + "/dashboard"; sign-in sends the e-mail and password |
| `Auth.FinishSignUp` | src/pages/Auth.tsx:55-61 | success toasts and switches to sign-in mode; an error is toasted verbatim and the mode stays; no navigation; loading ends; origin and mount flag are untouched, and after unmount the state is dropped unchanged |
| `Auth.FinishSignIn` | src/pages/Auth.tsx:63-83 | success toasts "Welcome back!"; an error is toasted verbatim; the mode never changes; no navigation; loading ends; origin and mount flag are untouched, and after unmount the state is dropped unchanged |
| `Auth.OnForm` | src/pages/Auth.tsx:148-152 | a submit while loading (the disabled button) does nothing; otherwise it is exactly the start of the submission, which sends the current mode's one request |
| `Auth.StepResponds` | src/pages/Auth.tsx:23-160 | a reported session (a notification only while subscribed) navigates to /dashboard with nothing else changed; settled requests reach their handlers; while mounted the fields take typed values, the link toggles the mode, a submit reaches the form handler, and teardown unsubscribes |
| `Auth.SubmitTwiceSendsOnce` | src/pages/Auth.tsx:148-152 | two submits in a row send one request |
| `Auth.Toggle` | src/pages/Auth.tsx:160 | the toggle flips the mode and nothing else |
| `Auth.ToggleTwice` | src/pages/Auth.tsx:160 | toggling twice restores the state |
| `Auth.RunNavigatesOnlyOnSession` | src/pages/Auth.tsx:23-84 | the page navigates only to /dashboard, and not at all when no event reports a session |
| `Auth.ErrorReportedVerbatim` | src/pages/Auth.tsx:75-83 | any provider error yields exactly one destructive toast carrying the message unchanged |
| `Auth.SignUpRoundTrip` | src/pages/Auth.tsx:40-61 | a successful sign-up sends one request, toasts once, lands in sign-in mode, and does not navigate |
| `CodeBot.OnSend` | src/components/CodeBot.tsx:35-46 | nothing happens iff the input is all whitespace or a request is in flight; otherwise the untrimmed input is appended, the input clears, loading starts, and the body is the prior log plus that message |
| `CodeBot.OnForm` | src/components/CodeBot.tsx:170-175 | typing while a request is in flight (the disabled input) changes nothing; otherwise it sets the input |
| `CodeBot.StepResponds` | src/components/CodeBot.tsx:84-175 | the bot button opens the window; while open, the form reaches its handler, a send reaches `handleSend` and the close button closes it; a settled request is answered or reported |
| `CodeBot.ClassifyError` | src/components/CodeBot.tsx:48-56 | "429" anywhere gives the rate-limit text; else "402" gives the usage-limit text; else the message stands |
| `CodeBot.OnFailed` | src/components/CodeBot.tsx:63-72 | no message is added, loading ends, and exactly one toast shows the classified error or the fallback text |
| `CodeBot.OnReplied` | src/components/CodeBot.tsx:58-62 | exactly one assistant message with the response is appended and loading ends |
| `CodeBot.RunAppendOnly` | src/components/CodeBot.tsx:35-72 | whatever happens, the earlier log is a prefix of the later one |
| `CodeBot.GreetingStaysFirst` | src/components/CodeBot.tsx:18-23 | the log starts as the one greeting, and the greeting stays first |
| `CodeBot.RunKeepsUserMessagesNotBlank` | src/components/CodeBot.tsx:35-41 | no event sequence puts an all-whitespace user message in the log |
| `CodeBot.SendThenReply` | src/components/CodeBot.tsx:35-62 | an answered send adds the user message then the reply, and the widget is ready again |
| `CodeBot.SendThenFail` | src/components/CodeBot.tsx:35-72 | a failed send adds only the user message, with one request and one toast |

## Left out

- Markup, styling and animation in all five components: presentation only.
- The other pages and components (landing page, navbar, cards, challenges, particle background): static markup with no logic.
- Provider internals (auth calls, table queries, the chat function): foreign calls. Only their results are modelled, as events.
- The 2-second delay before the redirect after a successful verification upload. The navigation is emitted directly.
- CodeBot's scroll-to-bottom effect: a DOM side effect.
- The file-size display in megabytes: floating-point formatting.
- Concurrency between `getSession` and auth notifications. They are events applied one at a time, in any order a trace gives.
- The browser's own form checks (`required`, `type="email"`) that run before `handleSubmit`. The model's `Submit` event is a submission that passed them.
- Numbers are modelled as unbounded integers (scores, levels) and reals (the percent), not IEEE doubles. `-0` is identified with `0`.
- A provider error whose `message` is missing is modelled as the empty message. Both are falsy for `||`, and neither contains "429" or "402".
- A chat reply with neither data nor error would make `data.response` throw in the source. It is not modelled: the reply event always carries a response.
- Form events (typing, dropping, submitting, sign-out clicks, chat input) are ignored when the source renders nothing, since there is no form to act on.
- `console.error` logging of failed uploads and failed chat requests: diagnostic output only.
- CodeBot is never unmounted in the model: it has no subscription and no cleanup, so every reply or failure is applied.
- `VerificationUpload.BeginSubmit` models `handleSubmit`'s no-file branch, but the page never reaches it: the submit button is disabled without a file and the form has no text field for implicit submission.
- VerificationUpload does not track unmounting: its only asynchronous state updates are the auth check and the insert result, and the model applies them as they arrive.

=== FILE: auth.dfy ===
/**
 The sign-in / sign-up page (src/pages/Auth.tsx): the mode chosen from the
 query string and its toggle, navigation driven only by sessions, and how
 the outcome of a sign-up or sign-in request is reported.
 */
module Auth {
  import opened Common

  /** The page's React state, the page origin used for the e-mail link,
      and whether the page is still mounted (and subscribed). */
  datatype State = State(
    isSignup: bool,
    email: string,
    password: string,
    fullName: string,
    loading: bool,
    origin: string,
    mounted: bool)

  /** What the user does on the page. */
  datatype FormEvent =
    | EmailChanged(email: string)
    | PasswordChanged(password: string)
    | FullNameChanged(fullName: string)
    | ToggleMode                        // the Sign In / Sign Up link
    | Submit                            // the form passes the browser's checks and is submitted

  datatype Event =
    | SessionResolved(session: Option<Session>)  // getSession() settles
    | AuthChanged(session: Option<Session>)      // onAuthStateChange callback
    | SignUpResolved(outcome: Outcome)           // signUp settles
    | SignInResolved(outcome: Outcome)           // signInWithPassword settles
    | Form(action: FormEvent)
    | Unmount                                    // effect cleanup

  datatype Effect =
    | Navigate(path: string)
    | ShowToast(toast: Toast)
    | SignUpRequest(email: string, password: string, fullName: string, emailRedirectTo: string)
    | SignInRequest(email: string, password: string)
    | Unsubscribe

  datatype Transition = Transition(next: State, effects: seq<Effect>)

  const SignUpToast: Toast := Toast("Success!", "Account created successfully. You can now sign in.", Default)
  const SignInToast: Toast := Toast("Welcome back!", "Signed in successfully.", Default)

  /** The toast for any provider error: its message word for word. */
  function ErrorToast(message: string): Toast
  {
    Toast("Error", message, Destructive)
  }

  /** The page as first rendered: sign-up mode exactly when the `mode`
      query parameter is `signup`; empty fields, not loading. */
  function Init(modeParam: Option<string>, origin: string): (s: State)
    ensures s.isSignup <==> modeParam == Some("signup")
    ensures s.email == "" && s.password == "" && s.fullName == ""
    ensures !s.loading && s.mounted && s.origin == origin
  {
    State(modeParam == Some("signup"), "", "", "", false, origin, true)
  }

  /** The session callback shared by bootstrap and notifications: a session
      sends the browser to the dashboard, no session does nothing. */
  function OnSession(s: State, session: Option<Session>): (t: Transition)
    ensures t.next == s
    ensures session.Some? <==> t.effects == [Navigate(DashboardPath)]
    ensures session.None? <==> t.effects == []
  {
    if session.Some? then Transition(s, [Navigate(DashboardPath)]) else Transition(s, [])
  }

  /** The synchronous part of `handleSubmit`: loading starts and the request
      the current mode calls for is sent. Sign-up passes the full name as
      user metadata and asks for the e-mail link to lead to the dashboard. */
  function BeginSubmit(s: State): (t: Transition)
    ensures t.next == s.(loading := true)
    ensures s.isSignup ==>
      t.effects == [SignUpRequest(s.email, s.password, s.fullName, s.origin + "/dashboard")]
    ensures !s.isSignup ==> t.effects == [SignInRequest(s.email, s.password)]
  {
    var request :=
      if s.isSignup then SignUpRequest(s.email, s.password, s.fullName, s.origin + DashboardPath)
      else SignInRequest(s.email, s.password);
    Transition(s.(loading := true), [request])
  }

  /** The end of `handleSubmit` after a sign-up request. Success reports it
      and switches to sign-in mode; an error is reported verbatim and the
      mode stays. Loading ends, and the handler never navigates. */
  function FinishSignUp(s: State, outcome: Outcome): (t: Transition)
    ensures !s.mounted ==> t.next == s
    ensures t.next.origin == s.origin && t.next.mounted == s.mounted
    ensures s.mounted ==> !t.next.loading
    ensures outcome.Ok? ==> t.effects == [ShowToast(SignUpToast)]
    ensures outcome.Ok? && s.mounted ==> !t.next.isSignup
    ensures outcome.Err? ==> t.effects == [ShowToast(Toast("Error", outcome.message, Destructive))]
    ensures outcome.Err? ==> t.next.isSignup == s.isSignup
    ensures t.next.email == s.email && t.next.password == s.password && t.next.fullName == s.fullName
  {
    match outcome
    case Ok => Transition(Commit(s.mounted, s, s.(isSignup := false, loading := false)), [ShowToast(SignUpToast)])
    case Err(m) => Transition(Commit(s.mounted, s, s.(loading := false)), [ShowToast(ErrorToast(m))])
  }

  /** The end of `handleSubmit` after a sign-in request. Success is only
      reported (the dashboard is reached through the session notification);
      an error is reported verbatim. The mode never changes here. */
  function FinishSignIn(s: State, outcome: Outcome): (t: Transition)
    ensures !s.mounted ==> t.next == s
    ensures t.next.origin == s.origin && t.next.mounted == s.mounted
    ensures s.mounted ==> !t.next.loading
    ensures t.next.isSignup == s.isSignup
    ensures outcome.Ok? ==> t.effects == [ShowToast(SignInToast)]
    ensures outcome.Err? ==> t.effects == [ShowToast(Toast("Error", outcome.message, Destructive))]
    ensures t.next.email == s.email && t.next.password == s.password && t.next.fullName == s.fullName
  {
    var toast := if outcome.Ok? then SignInToast else ErrorToast(outcome.message);
    Transition(Commit(s.mounted, s, s.(loading := false)), [ShowToast(toast)])
  }

  /** The mode link: sign-up becomes sign-in and back. */
  function Toggle(s: State): (r: State)
    ensures r.isSignup != s.isSignup
    ensures r.(isSignup := s.isSignup) == s
  {
    s.(isSignup := !s.isSignup)
  }

  /** Toggling twice is no change at all. */
  lemma ToggleTwice(s: State)
    ensures Toggle(Toggle(s)) == s
  {
  }

  /** A user action on the page. The submit button is disabled while a
      request is in flight, which also blocks submitting with Enter, so a
      submit then does nothing. */
  function OnForm(s: State, a: FormEvent): (t: Transition)
    ensures a == Submit && s.loading ==> t == Transition(s, [])
    ensures a == Submit && !s.loading ==> t == BeginSubmit(s)
  {
    match a
    case EmailChanged(v) => Transition(s.(email := v), [])
    case PasswordChanged(v) => Transition(s.(password := v), [])
    case FullNameChanged(v) => Transition(s.(fullName := v), [])
    case ToggleMode => Transition(Toggle(s), [])
    case Submit => if s.loading then Transition(s, []) else BeginSubmit(s)
  }

  /** One event. Notifications stop once the subscription is released, and
      an unmounted page takes no input; a settling request still shows its
      toast and a settling `getSession` still navigates. */
  function Step(s: State, e: Event): (t: Transition)
  {
    match e
    case SessionResolved(session) => OnSession(s, session)
    case AuthChanged(session) => if s.mounted then OnSession(s, session) else Transition(s, [])
    case SignUpResolved(outcome) => FinishSignUp(s, outcome)
    case SignInResolved(outcome) => FinishSignIn(s, outcome)
    case Form(a) => if s.mounted then OnForm(s, a) else Transition(s, [])
    case Unmount => if s.mounted then Transition(s.(mounted := false), [Unsubscribe]) else Transition(s, [])
  }

  function Run(s: State, evs: seq<Event>): (t: Transition)
    decreases |evs|
  {
    if |evs| == 0 then Transition(s, [])
    else
      var first := Step(s, evs[0]);
      var rest := Run(first.next, evs[1..]);
      Transition(rest.next, first.effects + rest.effects)
  }

  /** The event carries a present session. */
  predicate HasSession(e: Event)
  {
    (e.SessionResolved? || e.AuthChanged?) && e.session.Some?
  }

  /** Each event reaches its handler: a reported session (a notification
      only while subscribed) sends the browser to the dashboard, settled
      requests are reported, and while mounted the fields take what is
      typed, the link toggles the mode and a submit goes to the form
      handler; teardown unsubscribes once. */
  lemma StepResponds(s: State, e: Event)
    ensures HasSession(e) && (e.SessionResolved? || s.mounted) ==>
      Step(s, e) == Transition(s, [Navigate(DashboardPath)])
    ensures e.SignUpResolved? ==> Step(s, e) == FinishSignUp(s, e.outcome)
    ensures e.SignInResolved? ==> Step(s, e) == FinishSignIn(s, e.outcome)
    ensures s.mounted && e.Form? && e.action.EmailChanged? ==>
      Step(s, e) == Transition(s.(email := e.action.email), [])
    ensures s.mounted && e.Form? && e.action.PasswordChanged? ==>
      Step(s, e) == Transition(s.(password := e.action.password), [])
    ensures s.mounted && e.Form? && e.action.FullNameChanged? ==>
      Step(s, e) == Transition(s.(fullName := e.action.fullName), [])
    ensures s.mounted && e == Form(ToggleMode) ==> Step(s, e) == Transition(Toggle(s), [])
    ensures s.mounted && e == Form(Submit) ==> Step(s, e) == OnForm(s, Submit)
    ensures s.mounted && e == Unmount ==> Step(s, e) == Transition(s.(mounted := false), [Unsubscribe])
  {
  }

  /** The page only ever navigates to the dashboard, and only when a
      session is reported: without one, whatever the user submits and
      however the provider answers, the page stays put. */
  lemma {:induction false} RunNavigatesOnlyOnSession(s: State, evs: seq<Event>)
    ensures forall e :: e in Run(s, evs).effects && e.Navigate? ==> e.path == DashboardPath
    ensures (forall i :: 0 <= i < |evs| ==> !HasSession(evs[i])) ==>
      forall e :: e in Run(s, evs).effects ==> !e.Navigate?
    decreases |evs|
  {
    if |evs| > 0 {
      RunNavigatesOnlyOnSession(Step(s, evs[0]).next, evs[1..]);
    }
  }

  /** Each provider error produces exactly one toast, and it is the
      destructive one carrying the message unchanged. */
  lemma ErrorReportedVerbatim(s: State, signup: bool, message: string)
    ensures var t := if signup then FinishSignUp(s, Err(message)) else FinishSignIn(s, Err(message));
      |t.effects| == 1 && t.effects[0].ShowToast?
      && t.effects[0].toast.description == message && t.effects[0].toast.variant == Destructive
  {
  }

  /** Submitting in sign-up mode and succeeding: one request with the
      dashboard link, one success toast, sign-in mode, loading over, and no
      navigation. */
  lemma {:induction false} SignUpRoundTrip(s: State)
    requires s.mounted && s.isSignup && !s.loading
    ensures var t := Run(s, [Form(Submit), SignUpResolved(Ok)]);
      && t.effects == [SignUpRequest(s.email, s.password, s.fullName, s.origin + "/dashboard"), ShowToast(SignUpToast)]
      && t.next == s.(isSignup := false)
  {
    var evs := [Form(Submit), SignUpResolved(Ok)];
    assert evs[1..] == [SignUpResolved(Ok)];
    assert evs[1..][1..] == [];
  }

  /** Two submits in a row send one request: the second finds the button
      disabled. */
  lemma {:induction false} SubmitTwiceSendsOnce(s: State)
    requires s.mounted && !s.loading
    ensures var t := Run(s, [Form(Submit), Form(Submit)]);
      t.effects == BeginSubmit(s).effects && t.next == s.(loading := true)
  {
    var evs := [Form(Submit), Form(Submit)];
    assert evs[1..] == [Form(Submit)];
    assert evs[1..][1..] == [];
  }
}

=== FILE: codebot.dfy ===
/**
 The CodeBot chat widget (src/components/CodeBot.tsx): the send guard, the
 append-only message log, the request body, and how a failed request is
 explained to the user.
 */
module CodeBot {
  import opened Common
  import JsText

  datatype Role = UserRole | AssistantRole

  datatype Message = Message(role: Role, content: string)

  datatype State = State(isOpen: bool, messages: seq<Message>, input: string, isLoading: bool)

  /** What the user does inside the open chat window. */
  datatype FormEvent =
    | InputChanged(text: string)
    | Send                          // the send form is submitted
    | Close

  datatype Event =
    | Open                          // the floating bot button
    | Form(action: FormEvent)
    | Replied(response: string)     // the chat function answers with `data.response`
    | Failed(message: string)       // the chat function reports an error

  datatype Effect = Invoke(body: seq<Message>) | ShowToast(toast: Toast)

  datatype Transition = Transition(next: State, effects: seq<Effect>)

  /** The greeting, character for character as the source file spells it
      (its last four characters are a mis-decoded rocket emoji). */
  const Greeting: Message := Message(AssistantRole,
    "Hey! I'm CodeBot, your coding companion. How's your coding journey going today? \U{00F0}\U{0178}\U{0161}\U{20AC}")

  const RateLimitText: string := "Rate limit reached. Please try again in a moment."
  const UsageLimitText: string := "AI usage limit reached. Please add credits to continue."
  const FallbackText: string := "Failed to get response from CodeBot"

  /** The widget as first rendered: closed, one greeting, empty input. */
  const Initial: State := State(false, [Greeting], "", false)

  /** `handleSend`. Blank input (only whitespace, as `trim` sees it) or a
      request in flight: nothing happens. Otherwise the untrimmed input is
      appended as the user's message, the input clears, loading starts,
      and the request carries the earlier log followed by that message. */
  function OnSend(s: State): (t: Transition)
    ensures (t.next == s && t.effects == []) <==> JsText.AllSpace(s.input) || s.isLoading
    ensures !JsText.AllSpace(s.input) && !s.isLoading ==>
      && t.next.messages == s.messages + [Message(UserRole, s.input)]
      && t.next.input == "" && t.next.isLoading && t.next.isOpen == s.isOpen
      && t.effects == [Invoke(s.messages + [Message(UserRole, s.input)])]
  {
    if JsText.Trim(s.input) == "" || s.isLoading then Transition(s, [])
    else
      var userMessage := Message(UserRole, s.input);
      Transition(s.(messages := s.messages + [userMessage], input := "", isLoading := true),
                 [Invoke(s.messages + [userMessage])])
  }

  /** The error text `handleSend` rethrows: a message mentioning 429 means
      the rate limit, otherwise one mentioning 402 means the usage limit,
      otherwise the message stands. 429 wins when both occur. */
  function ClassifyError(message: string): (r: string)
    ensures (exists i :: JsText.OccursAt(message, "429", i)) ==> r == RateLimitText
    ensures (forall i :: !JsText.OccursAt(message, "429", i)) && (exists i :: JsText.OccursAt(message, "402", i)) ==>
      r == UsageLimitText
    ensures (forall i :: !JsText.OccursAt(message, "429", i) && !JsText.OccursAt(message, "402", i)) ==>
      r == message
  {
    JsText.IncludesIffOccurs(message, "429");
    JsText.IncludesIffOccurs(message, "402");
    if JsText.Includes(message, "429") then RateLimitText
    else if JsText.Includes(message, "402") then UsageLimitText
    else message
  }

  /** A failed request: no message is added, loading ends, and exactly one
      toast explains it, with a fixed text when the error has no message. */
  function OnFailed(s: State, message: string): (t: Transition)
    ensures t.next == s.(isLoading := false)
    ensures |t.effects| == 1 && t.effects[0].ShowToast?
    ensures t.effects[0].toast.title == "Error" && t.effects[0].toast.variant == Destructive
    ensures message == "" ==> t.effects[0].toast.description == FallbackText
    ensures message != "" ==> t.effects[0].toast.description == ClassifyError(message)
  {
    Transition(s.(isLoading := false), [ShowToast(Toast("Error", OrElse(ClassifyError(message), FallbackText), Destructive))])
  }

  /** A reply: exactly one assistant message is appended and loading ends. */
  function OnReplied(s: State, response: string): (t: Transition)
    ensures t.next.messages == s.messages + [Message(AssistantRole, response)]
    ensures !t.next.isLoading && t.next.input == s.input && t.next.isOpen == s.isOpen
    ensures t.effects == []
  {
    Transition(s.(messages := s.messages + [Message(AssistantRole, response)], isLoading := false), [])
  }

  /** A user action in the open window. The input box is disabled while a
      request is in flight, so typing then changes nothing. The send button
      is disabled exactly when `handleSend`'s own guard fails, so a send
      goes straight to the handler. */
  function OnForm(s: State, a: FormEvent): (t: Transition)
    ensures a.InputChanged? && s.isLoading ==> t == Transition(s, [])
    ensures a.InputChanged? && !s.isLoading ==> t == Transition(s.(input := a.text), [])
  {
    match a
    case InputChanged(text) => if s.isLoading then Transition(s, []) else Transition(s.(input := text), [])
    case Send => OnSend(s)
    case Close => Transition(s.(isOpen := false), [])
  }

  /** One event. The input and send form exist only while the window is open. */
  function Step(s: State, e: Event): (t: Transition)
  {
    match e
    case Open => Transition(s.(isOpen := true), [])
    case Form(a) => if s.isOpen then OnForm(s, a) else Transition(s, [])
    case Replied(response) => OnReplied(s, response)
    case Failed(message) => OnFailed(s, message)
  }

  /** Each event reaches its handler: the bot button opens the window,
      while it is open the form goes to the form handler and the close
      button closes it, and a settled request is answered or reported. */
  lemma StepResponds(s: State, e: Event)
    ensures e == Open ==> Step(s, e) == Transition(s.(isOpen := true), [])
    ensures s.isOpen && e.Form? ==> Step(s, e) == OnForm(s, e.action)
    ensures s.isOpen && e == Form(Send) ==> Step(s, e) == OnSend(s)
    ensures s.isOpen && e == Form(Close) ==> Step(s, e) == Transition(s.(isOpen := false), [])
    ensures e.Replied? ==> Step(s, e) == OnReplied(s, e.response)
    ensures e.Failed? ==> Step(s, e) == OnFailed(s, e.message)
  {
  }

  function Run(s: State, evs: seq<Event>): (t: Transition)
    decreases |evs|
  {
    if |evs| == 0 then Transition(s, [])
    else
      var first := Step(s, evs[0]);
      var rest := Run(first.next, evs[1..]);
      Transition(rest.next, first.effects + rest.effects)
  }

  /** The log is append-only: whatever happens, the earlier messages stay
      as they were, in front. */
  lemma {:induction false} RunAppendOnly(s: State, evs: seq<Event>)
    ensures s.messages <= Run(s, evs).next.messages
    decreases |evs|
  {
    if |evs| > 0 {
      var first := Step(s, evs[0]);
      RunAppendOnly(first.next, evs[1..]);
    }
  }

  /** The greeting opens the log for good. */
  lemma GreetingStaysFirst(evs: seq<Event>)
    ensures |Run(Initial, evs).next.messages| >= 1
    ensures Run(Initial, evs).next.messages[0] == Greeting
  {
    RunAppendOnly(Initial, evs);
  }

  /** Every message the user wrote has something besides whitespace. */
  ghost predicate UserMessagesNotBlank(s: State)
  {
    forall i :: 0 <= i < |s.messages| && s.messages[i].role == UserRole ==> !JsText.AllSpace(s.messages[i].content)
  }

  /** No sequence of events puts a blank user message in the log. */
  lemma {:induction false} RunKeepsUserMessagesNotBlank(s: State, evs: seq<Event>)
    requires UserMessagesNotBlank(s)
    ensures UserMessagesNotBlank(Run(s, evs).next)
    decreases |evs|
  {
    if |evs| > 0 {
      var first := Step(s, evs[0]);
      assert UserMessagesNotBlank(first.next);
      RunKeepsUserMessagesNotBlank(first.next, evs[1..]);
    }
  }

  /** Unrolls `Run` over exactly two events; the scenario lemmas below
      need it only to keep the solver's unfolding of `Run` short. */
  lemma RunTwo(s: State, a: Event, b: Event)
    ensures var first := Step(s, a); var second := Step(first.next, b);
      Run(s, [a, b]) == Transition(second.next, first.effects + second.effects)
  {
    var evs := [a, b];
    var first := Step(s, a);
    var second := Step(first.next, b);
    assert evs[1..] == [b];
    assert [b][1..] == [];
    assert Run(second.next, []) == Transition(second.next, []);
    assert Run(first.next, [b]) == Transition(second.next, second.effects + []);
    assert second.effects + [] == second.effects;
  }

  /** A send that goes through and is answered adds the user's message and
      then the reply, and leaves the widget ready for the next send. */
  lemma SendThenReply(s: State, response: string)
    requires s.isOpen && !s.isLoading && !JsText.AllSpace(s.input)
    ensures var t := Run(s, [Form(Send), Replied(response)]);
      && t.next.messages == s.messages + [Message(UserRole, s.input), Message(AssistantRole, response)]
      && !t.next.isLoading && t.next.input == ""
      && t.effects == [Invoke(s.messages + [Message(UserRole, s.input)])]
  {
    RunTwo(s, Form(Send), Replied(response));
    var sent := OnSend(s);
    var replied := OnReplied(sent.next, response);
    assert sent.next.messages + [Message(AssistantRole, response)]
      == s.messages + [Message(UserRole, s.input), Message(AssistantRole, response)];
    assert sent.effects + replied.effects == sent.effects;
  }

  /** The step a sendable message takes from the open window, written out
      for the scenario lemmas. */
  lemma SendStep(s: State)
    requires s.isOpen && !s.isLoading && !JsText.AllSpace(s.input)
    ensures var sent := s.messages + [Message(UserRole, s.input)];
      Step(s, Form(Send)) == Transition(s.(messages := sent, input := "", isLoading := true), [Invoke(sent)])
  {
  }

  /** A send that fails adds only the user's message and one toast. */
  lemma SendThenFail(s: State, message: string)
    requires s.isOpen && !s.isLoading && !JsText.AllSpace(s.input)
    ensures var t := Run(s, [Form(Send), Failed(message)]);
      && t.next.messages == s.messages + [Message(UserRole, s.input)]
      && !t.next.isLoading
      && |t.effects| == 2 && t.effects[0] == Invoke(s.messages + [Message(UserRole, s.input)])
      && t.effects[1].ShowToast?
  {
    SendStep(s);
    var sent := Step(s, Form(Send));
    var failed := OnFailed(sent.next, message);
    RunTwo(s, Form(Send), Failed(message));
    assert (sent.effects + failed.effects)[1] == failed.effects[0];
  }
}

=== FILE: common.dfy ===
/**
 Values shared by the pages: the optional wrapper, the authentication
 provider's session and result shapes, the toast notification, the route
 paths, and JavaScript's `||` on strings.
 */
module Common {

  /** A value that may be missing (`null`/`undefined` in the pages). */
  datatype Option<+T> = None | Some(value: T)

  /** The signed-in user as the provider reports it. */
  datatype User = User(id: string, email: string)

  /** A provider session; the pages only ever read its user. */
  datatype Session = Session(user: User)

  /** Result of a provider call that returns `{ error }`: no error, or an
      error whose `message` is kept as text ("" when it is missing). */
  datatype Outcome = Ok | Err(message: string)

  /** Visual variant of a toast. */
  datatype Variant = Default | Destructive

  /** One toast notification. */
  datatype Toast = Toast(title: string, description: string, variant: Variant)

  const HomePath: string := "/"
  const AuthPath: string := "/auth"
  const DashboardPath: string := "/dashboard"

  /** JavaScript `s || fallback` for a string: the empty string (like a
      missing value) is falsy and yields the fallback. */
  function OrElse(s: string, fallback: string): (r: string)
    ensures s != "" ==> r == s
    ensures s == "" ==> r == fallback
  {
    if s == "" then fallback else s
  }

  /** Does a state update from an asynchronous continuation take effect?
      React drops updates to a component that has been unmounted. */
  function Commit<S>(mounted: bool, current: S, updated: S): (r: S)
    ensures mounted ==> r == updated
    ensures !mounted ==> r == current
  {
    if mounted then updated else current
  }
}

=== FILE: dashboard.dfy ===
/**
 The dashboard page (src/pages/Dashboard.tsx) as a state machine: session
 bootstrap and auth notifications, the profile fetch, sign-out, teardown,
 and what the page shows (XP progress and the three verification gates).
 Provider results arrive as events; navigations and provider calls leave
 as effects.
 */
module Dashboard {
  import opened Common

  datatype VerificationStatus = Pending | Approved | Rejected

  /** A row of the `profiles` table. */
  datatype Profile = Profile(
    id: string,
    userId: string,
    fullName: string,
    bio: Option<string>,
    xpScore: int,
    level: int,
    verificationStatus: VerificationStatus,
    techStack: seq<string>,
    avatarUrl: Option<string>)

  /** The page's React state, plus whether it is still mounted (and so
      still subscribed to auth notifications). */
  datatype State = State(user: Option<User>, profile: Option<Profile>, loading: bool, mounted: bool)

  datatype Event =
    | SessionResolved(session: Option<Session>)  // getSession() settles
    | AuthChanged(session: Option<Session>)      // onAuthStateChange callback
    | ProfileFetched(data: Option<Profile>)      // the profiles query settles
    | SignOutClicked                             // the Sign Out button
    | SignOutResolved                            // signOut() settles
    | Unmount                                    // effect cleanup

  datatype Effect =
    | RequestSession
    | Subscribe
    | Navigate(path: string)
    | FetchProfile(userId: string)
    | SignOut
    | Unsubscribe

  datatype Transition = Transition(next: State, effects: seq<Effect>)

  /** Mounting: nothing known yet, loading, and two provider calls issued. */
  function Mount(): (t: Transition)
    ensures t.next.user.None? && t.next.profile.None? && t.next.loading && t.next.mounted
    ensures t.effects == [RequestSession, Subscribe]
  {
    Transition(State(None, None, true, true), [RequestSession, Subscribe])
  }

  /** The session callback shared by bootstrap and notifications: no session
      sends the browser to the sign-in page and leaves the user as it was;
      a session becomes the user and its profile is fetched by its user id. */
  function OnSession(s: State, session: Option<Session>): (t: Transition)
    ensures session.None? ==> t.next == s && t.effects == [Navigate(AuthPath)]
    ensures session.Some? ==> t.effects == [FetchProfile(session.value.user.id)]
    ensures session.Some? && s.mounted ==> t.next.user == Some(session.value.user)
    ensures t.next.profile == s.profile && t.next.loading == s.loading && t.next.mounted == s.mounted
    ensures !s.mounted ==> t.next == s
  {
    match session
    case None => Transition(s, [Navigate(AuthPath)])
    case Some(sn) => Transition(Commit(s.mounted, s, s.(user := Some(sn.user))), [FetchProfile(sn.user.id)])
  }

  /** The end of `fetchProfile`: a returned row replaces the profile, no row
      keeps the old one, and loading ends either way. */
  function OnProfile(s: State, data: Option<Profile>): (t: Transition)
    ensures s.mounted ==> !t.next.loading && t.next.user == s.user && t.next.mounted
    ensures s.mounted && data.Some? ==> t.next.profile == data
    ensures data.None? ==> t.next.profile == s.profile
    ensures !s.mounted ==> t.next == s
    ensures t.effects == []
  {
    var updated := if data.Some? then s.(profile := data) else s;
    Transition(Commit(s.mounted, s, updated.(loading := false)), [])
  }

  /** The page shows something (and so has a Sign Out button). */
  predicate Rendered(s: State)
  {
    s.mounted && s.user.Some? && !s.loading
  }

  /** One event. Notifications stop once the subscription is released; a
      settling `getSession` or `signOut` still navigates after teardown,
      while React drops the state updates. */
  function Step(s: State, e: Event): (t: Transition)
  {
    match e
    case SessionResolved(session) => OnSession(s, session)
    case AuthChanged(session) => if s.mounted then OnSession(s, session) else Transition(s, [])
    case ProfileFetched(data) => OnProfile(s, data)
    case SignOutClicked => if Rendered(s) then Transition(s, [SignOut]) else Transition(s, [])
    case SignOutResolved => Transition(s, [Navigate(HomePath)])
    case Unmount => if s.mounted then Transition(s.(mounted := false), [Unsubscribe]) else Transition(s, [])
  }

  /** Each event reaches its handler: a reported session (a notification
      only while subscribed) goes through the session callback, so no
      session leads to the sign-in page and a session sets the user and
      fetches the profile; a settled query ends loading and shows the row
      it returned; a settled sign-out leads to the landing page. */
  lemma StepResponds(s: State, e: Event)
    ensures (e.SessionResolved? || (e.AuthChanged? && s.mounted)) && e.session.None? ==>
      Step(s, e) == Transition(s, [Navigate(AuthPath)])
    ensures (e.SessionResolved? || (e.AuthChanged? && s.mounted)) && e.session.Some? ==>
      Step(s, e).effects == [FetchProfile(e.session.value.user.id)]
    ensures (e.SessionResolved? || e.AuthChanged?) && e.session.Some? && s.mounted ==>
      Step(s, e).next == s.(user := Some(e.session.value.user))
    ensures e.ProfileFetched? && s.mounted ==>
      Step(s, e).next == s.(profile := if e.data.Some? then e.data else s.profile, loading := false)
    ensures e == SignOutResolved ==> Step(s, e) == Transition(s, [Navigate(HomePath)])
  {
  }

  /** The events applied one after another, effects in order. */
  function Run(s: State, evs: seq<Event>): (t: Transition)
    decreases |evs|
  {
    if |evs| == 0 then Transition(s, [])
    else
      var first := Step(s, evs[0]);
      var rest := Run(first.next, evs[1..]);
      Transition(rest.next, first.effects + rest.effects)
  }

  /** Sign-out: the click calls the provider, and once that settles the
      browser goes to the landing page. */
  lemma SignOutThenHome(s: State)
    requires Rendered(s)
    ensures Run(s, [SignOutClicked, SignOutResolved]).effects == [SignOut, Navigate(HomePath)]
    ensures Run(s, [SignOutClicked, SignOutResolved]).next == s
  {
    assert [SignOutClicked, SignOutResolved][1..] == [SignOutResolved];
  }

  /** Teardown releases the subscription exactly once; after it no event
      changes the state. */
  lemma {:induction false} RunAfterUnmount(s: State, evs: seq<Event>)
    requires !s.mounted
    ensures Run(s, evs).next == s
    ensures Unsubscribe !in Run(s, evs).effects
    decreases |evs|
  {
    if |evs| > 0 {
      RunAfterUnmount(Step(s, evs[0]).next, evs[1..]);
    }
  }

  /** A mounted page releases its subscription exactly once if it is torn
      down, and never otherwise. */
  lemma {:induction false} RunUnsubscribesOnce(s: State, evs: seq<Event>)
    requires s.mounted
    ensures multiset(Run(s, evs).effects)[Unsubscribe] == (if Unmount in evs then 1 else 0)
    decreases |evs|
  {
    if |evs| > 0 {
      var first := Step(s, evs[0]);
      assert evs == [evs[0]] + evs[1..];
      if evs[0] == Unmount {
        RunAfterUnmount(first.next, evs[1..]);
        assert multiset(Run(first.next, evs[1..]).effects)[Unsubscribe] == 0;
      } else {
        assert first.next.mounted;
        assert Unsubscribe !in first.effects;
        RunUnsubscribesOnce(first.next, evs[1..]);
      }
    }
  }

  /** Nothing on this page ever clears the user once it is set. */
  lemma {:induction false} RunKeepsUser(s: State, evs: seq<Event>)
    requires s.user.Some?
    ensures Run(s, evs).next.user.Some?
    decreases |evs|
  {
    if |evs| > 0 {
      RunKeepsUser(Step(s, evs[0]).next, evs[1..]);
    }
  }

  /** Once loading has ended it never starts again. */
  lemma {:induction false} RunLoadingStaysDone(s: State, evs: seq<Event>)
    requires !s.loading
    ensures !Run(s, evs).next.loading
    decreases |evs|
  {
    if |evs| > 0 {
      RunLoadingStaysDone(Step(s, evs[0]).next, evs[1..]);
    }
  }

  /** The event carries a present session. */
  predicate HasSession(e: Event)
  {
    (e.SessionResolved? || e.AuthChanged?) && e.session.Some?
  }

  /** The user ids of the sessions the events carry. */
  function SessionUserIds(evs: seq<Event>): set<string>
    decreases |evs|
  {
    if |evs| == 0 then {}
    else (if HasSession(evs[0]) then {evs[0].session.value.user.id} else {}) + SessionUserIds(evs[1..])
  }

  /** Profiles are fetched only for the users of sessions the provider
      reported, and the page only ever navigates to sign-in or home. */
  lemma {:induction false} RunEffectsFollowSessions(s: State, evs: seq<Event>)
    ensures forall e :: e in Run(s, evs).effects && e.FetchProfile? ==> e.userId in SessionUserIds(evs)
    ensures forall e :: e in Run(s, evs).effects && e.Navigate? ==> e.path == AuthPath || e.path == HomePath
    decreases |evs|
  {
    if |evs| > 0 {
      RunEffectsFollowSessions(Step(s, evs[0]).next, evs[1..]);
    }
  }

  /** Without a present session among the events the user is untouched:
      absent sessions only navigate. */
  lemma {:induction false} RunWithoutSessionKeepsUser(s: State, evs: seq<Event>)
    requires forall i :: 0 <= i < |evs| ==> !HasSession(evs[i])
    ensures Run(s, evs).next.user == s.user
    decreases |evs|
  {
    if |evs| > 0 {
      assert !HasSession(evs[0]);
      RunWithoutSessionKeepsUser(Step(s, evs[0]).next, evs[1..]);
    }
  }

  // ---------------------------------------------------------------------
  // What the page shows

  /** A JavaScript number as far as this page can produce one. */
  datatype JsNumber = Finite(value: real) | NaN | PositiveInfinity | NegativeInfinity

  /** The quotient of JavaScript's `%`: division truncated toward zero. */
  function TruncDiv(a: int, n: int): int
    requires n > 0
  {
    if a >= 0 then a / n else -((-a) / n)
  }

  /** JavaScript `a % n` for a positive `n`: what is left of `a` after
      taking whole multiples of `n` toward zero, so the remainder takes the
      sign of `a` (Dafny's `%` never goes negative). */
  function JsRem(a: int, n: int): (r: int)
    requires n > 0
    ensures a == TruncDiv(a, n) * n + r
    ensures a >= 0 ==> 0 <= r < n
    ensures a < 0 ==> -n < r <= 0
  {
    if a >= 0 then a % n else -((-a) % n)
  }

  /** JavaScript `(part / whole) * 100`; dividing by zero gives NaN or an
      infinity instead of failing. */
  function PercentOf(part: int, whole: int): (p: JsNumber)
    ensures whole != 0 ==> p.Finite? && p.value * whole as real == part as real * 100.0
    ensures whole == 0 ==>
      (p.NaN? <==> part == 0) && (p == PositiveInfinity <==> part > 0) && (p == NegativeInfinity <==> part < 0)
  {
    if whole != 0 then Finite((part as real / whole as real) * 100.0)
    else if part == 0 then NaN
    else if part > 0 then PositiveInfinity
    else NegativeInfinity
  }

  datatype Progression = Progression(xpForNextLevel: int, xpProgress: int, percent: JsNumber)

  /** The XP bar. Without a profile: 100 to go, nothing done, 0 percent.
      With one: a hundred XP per level, the progress is the score's
      (JavaScript) remainder modulo 100, and the percent is that progress
      as a share of the level's XP. */
  function ProgressOf(p: Option<Profile>): (g: Progression)
    ensures p.None? ==> g == Progression(100, 0, Finite(0.0))
    ensures p.Some? ==> g.xpForNextLevel == p.value.level * 100
    ensures p.Some? ==> p.value.xpScore == TruncDiv(p.value.xpScore, 100) * 100 + g.xpProgress
    ensures p.Some? ==> -100 < g.xpProgress < 100
    ensures p.Some? && p.value.xpScore >= 0 ==> 0 <= g.xpProgress
    ensures g.xpForNextLevel != 0 ==>
      g.percent.Finite? && g.percent.value * g.xpForNextLevel as real == g.xpProgress as real * 100.0
  {
    var forNext := if p.Some? then p.value.level * 100 else 100;
    var progress := if p.Some? then JsRem(p.value.xpScore, 100) else 0;
    Progression(forNext, progress, PercentOf(progress, forNext))
  }

  /** For a level of at least 1 and a non-negative score, the progress is
      below 100, which is at most the XP for the next level, so the percent
      is finite and in [0, 100). */
  lemma ProgressBounded(p: Profile)
    requires p.level >= 1 && p.xpScore >= 0
    ensures var g := ProgressOf(Some(p));
      && 0 <= g.xpProgress < 100 <= g.xpForNextLevel
      && g.percent.Finite? && 0.0 <= g.percent.value < 100.0
  {
    var g := ProgressOf(Some(p));
    var d := g.xpForNextLevel as real;
    var v := g.percent.value;
    assert d >= 100.0;
    assert v * d == g.xpProgress as real * 100.0;
    assert v * d < 100.0 * d;
  }

  /** Level 0 makes the divisor 0: the percent is not a finite number. */
  lemma LevelZeroPercentNotFinite(p: Profile)
    requires p.level == 0
    ensures !ProgressOf(Some(p)).percent.Finite?
  {
  }

  /** `profile?.verification_status`. */
  function StatusOf(p: Option<Profile>): Option<VerificationStatus>
  {
    if p.Some? then Some(p.value.verificationStatus) else None
  }

  /** The user has a profile and it is approved. */
  predicate IsApproved(p: Option<Profile>)
  {
    p.Some? && p.value.verificationStatus == Approved
  }

  const VerifiedLabel: string := "\U{2713} Verified"
  const PendingLabel: string := "\U{23F3} Pending Verification"

  datatype View = View(
    greetingName: string,
    email: string,
    verifiedBadge: bool,
    badgeLabel: string,
    shownLevel: int,
    shownXp: int,
    progress: Progression,
    findPartnersEnabled: bool,
    getVerifiedCardShown: bool)

  /** The page: nothing while there is no user or the profile is loading;
      otherwise the header, the XP bar and the gates. The Verified badge,
      an enabled Find Partners button and a hidden Get Verified card each
      hold exactly when the profile is approved; any other status, rejected
      included, reads as pending. */
  function Render(s: State): (v: Option<View>)
    ensures v.None? <==> s.user.None? || s.loading
    ensures v.Some? ==> v.value.email == s.user.value.email && v.value.progress == ProgressOf(s.profile)
    ensures v.Some? ==> (v.value.verifiedBadge <==> IsApproved(s.profile))
    ensures v.Some? ==> (v.value.findPartnersEnabled <==> IsApproved(s.profile))
    ensures v.Some? ==> (v.value.getVerifiedCardShown <==> !IsApproved(s.profile))
    ensures v.Some? ==> v.value.badgeLabel == (if IsApproved(s.profile) then VerifiedLabel else PendingLabel)
    ensures v.Some? ==>
      v.value.greetingName == (if s.profile.Some? && s.profile.value.fullName != "" then s.profile.value.fullName else "Coder")
    ensures v.Some? ==>
      v.value.shownLevel == (if s.profile.Some? && s.profile.value.level != 0 then s.profile.value.level else 1)
    ensures v.Some? ==> v.value.shownXp == (if s.profile.Some? then s.profile.value.xpScore else 0)
  {
    if s.user.None? || s.loading then None
    else
      var p := s.profile;
      var status := StatusOf(p);
      Some(View(
        greetingName := OrElse(if p.Some? then p.value.fullName else "", "Coder"),
        email := s.user.value.email,
        verifiedBadge := status == Some(Approved),
        badgeLabel := if status == Some(Approved) then VerifiedLabel else PendingLabel,
        shownLevel := if p.Some? && p.value.level != 0 then p.value.level else 1,
        shownXp := if p.Some? then p.value.xpScore else 0,
        progress := ProgressOf(p),
        findPartnersEnabled := !(status != Some(Approved)),
        getVerifiedCardShown := status != Some(Approved)))
  }
}

=== FILE: jstext.dfy ===
/**
 The three JavaScript string operations the pages rely on, each with an
 independent reference definition and a lemma tying the two together:
 `startsWith`, `includes` and `trim`.
 */
module JsText {

  /** `String.prototype.startsWith`, one character at a time. */
  predicate StartsWith(s: string, prefix: string)
    decreases prefix
  {
    |prefix| == 0 || (|s| > 0 && s[0] == prefix[0] && StartsWith(s[1..], prefix[1..]))
  }

  /** `startsWith` agrees with Dafny's prefix relation on sequences. */
  lemma {:induction false} StartsWithIsPrefix(s: string, prefix: string)
    ensures StartsWith(s, prefix) <==> prefix <= s
    decreases prefix
  {
    if |prefix| > 0 && |s| > 0 {
      StartsWithIsPrefix(s[1..], prefix[1..]);
      if prefix <= s {
        assert prefix[1..] <= s[1..];
      }
      if s[0] == prefix[0] && prefix[1..] <= s[1..] {
        assert prefix == [prefix[0]] + prefix[1..];
        assert s == [s[0]] + s[1..];
      }
    }
  }

  /** `needle` occurs in `s` starting at index `i`. */
  ghost predicate OccursAt(s: string, needle: string, i: int)
  {
    0 <= i && i + |needle| <= |s| && s[i..i + |needle|] == needle
  }

  /** `String.prototype.includes`: try every start position in turn. */
  predicate Includes(s: string, needle: string)
    decreases |s|
  {
    StartsWith(s, needle) || (|s| > 0 && Includes(s[1..], needle))
  }

  /** `includes` holds exactly when the needle occurs at some index. */
  lemma {:induction false} IncludesIffOccurs(s: string, needle: string)
    ensures Includes(s, needle) <==> exists i :: OccursAt(s, needle, i)
    decreases |s|
  {
    StartsWithIsPrefix(s, needle);
    if |s| > 0 {
      IncludesIffOccurs(s[1..], needle);
    }
    if Includes(s, needle) {
      if StartsWith(s, needle) {
        assert OccursAt(s, needle, 0);
      } else {
        var j :| OccursAt(s[1..], needle, j);
        assert s[1..][j..j + |needle|] == s[j + 1..j + 1 + |needle|];
        assert OccursAt(s, needle, j + 1);
      }
    }
    if exists i :: OccursAt(s, needle, i) {
      var i :| OccursAt(s, needle, i);
      if i == 0 {
        assert s[..|needle|] == needle;
      } else {
        assert s[1..][i - 1..i - 1 + |needle|] == s[i..i + |needle|];
        assert OccursAt(s[1..], needle, i - 1);
      }
    }
  }

  /** The characters `String.prototype.trim` removes: the ECMAScript
      WhiteSpace and LineTerminator code points. */
  predicate IsJsSpace(c: char)
  {
    || c == '\t' || c == '\n' || c == '\U{000B}' || c == '\U{000C}' || c == '\r'
    || c == ' ' || c == '\U{00A0}' || c == '\U{1680}'
    || ('\U{2000}' <= c <= '\U{200A}')
    || c == '\U{2028}' || c == '\U{2029}' || c == '\U{202F}' || c == '\U{205F}'
    || c == '\U{3000}' || c == '\U{FEFF}'
  }

  /** Every character of `s` is trimmable. */
  ghost predicate AllSpace(s: string)
  {
    forall i :: 0 <= i < |s| ==> IsJsSpace(s[i])
  }

  /** Drops leading whitespace: the result is a suffix of `s`, what was
      dropped is all whitespace, and the result does not start with any. */
  function TrimStart(s: string): (r: string)
    ensures |r| <= |s| && r == s[|s| - |r|..]
    ensures AllSpace(s[..|s| - |r|])
    ensures |r| > 0 ==> !IsJsSpace(r[0])
    decreases |s|
  {
    if |s| > 0 && IsJsSpace(s[0]) then TrimStart(s[1..]) else s
  }

  /** Drops trailing whitespace: the result is a prefix of `s`, what was
      dropped is all whitespace, and the result does not end with any. */
  function TrimEnd(s: string): (r: string)
    ensures |r| <= |s| && r == s[..|r|]
    ensures AllSpace(s[|r|..])
    ensures |r| > 0 ==> !IsJsSpace(r[|r| - 1])
    decreases |s|
  {
    if |s| > 0 && IsJsSpace(s[|s| - 1]) then TrimEnd(s[..|s| - 1]) else s
  }

  /** `r` is `s` with whitespace removed from both ends: it is the slice
      of `s` at `i`, everything before and after that slice is whitespace,
      and `r` itself neither starts nor ends with whitespace. */
  ghost predicate TrimmedAt(s: string, r: string, i: int)
  {
    && 0 <= i && i + |r| <= |s| && r == s[i..i + |r|]
    && AllSpace(s[..i]) && AllSpace(s[i + |r|..])
    && (|r| > 0 ==> !IsJsSpace(r[0]) && !IsJsSpace(r[|r| - 1]))
  }

  /** `String.prototype.trim`: the input with its leading and trailing
      whitespace removed. In particular the result is empty exactly when
      every character is whitespace, which is what makes `!s.trim()` the
      "blank input" test. */
  function Trim(s: string): (r: string)
    ensures exists i :: TrimmedAt(s, r, i)
    ensures r == [] <==> AllSpace(s)
  {
    TrimEmptyIffAllSpace(s);
    TrimBothEnds(s);
    TrimEnd(TrimStart(s))
  }

  /** Trimming the start and then the end cuts out a trimmed slice. */
  lemma TrimBothEnds(s: string)
    ensures TrimmedAt(s, TrimEnd(TrimStart(s)), |s| - |TrimStart(s)|)
  {
    var t := TrimStart(s);
    var r := TrimEnd(t);
    var k := |s| - |t|;
    TrimEmptyIffAllSpace(s);
    SliceOfSuffix(s, t, r, k);
    assert AllSpace(s[..k]);
    assert AllSpace(s[k + |r|..]);
  }

  /** A prefix `r` of the suffix `t == s[k..]` is the slice of `s` at `k`,
      and what follows it in `t` is what follows it in `s`. */
  lemma SliceOfSuffix(s: string, t: string, r: string, k: int)
    requires 0 <= k <= |s| && t == s[k..] && |r| <= |t| && r == t[..|r|]
    ensures k + |r| <= |s| && r == s[k..k + |r|] && s[k + |r|..] == t[|r|..]
  {
  }

  /** The characterisation in `Trim`'s contract has exactly one solution:
      any string trimmed out of `s` in that sense is `Trim(s)`. */
  lemma {:induction false} TrimUnique(s: string, r: string, i: int)
    requires TrimmedAt(s, r, i)
    ensures r == Trim(s)
  {
    var q := Trim(s);
    var j :| TrimmedAt(s, q, j);
    if r == [] {
      AllSpaceAround(s, i);
    } else {
      TrimmedBounds(s, r, i);
      assert !AllSpace(s);
      assert q != [];
      TrimmedBounds(s, q, j);
      assert i <= j && j <= i;
      assert i + |r| <= j + |q| && j + |q| <= i + |r|;
    }
  }

  /** A non-empty trimmed slice starts at the first non-whitespace
      character of `s` and ends at the last one. */
  lemma TrimmedBounds(s: string, r: string, i: int)
    requires TrimmedAt(s, r, i) && |r| > 0
    ensures !IsJsSpace(s[i]) && !IsJsSpace(s[i + |r| - 1])
    ensures forall k :: 0 <= k < i ==> IsJsSpace(s[k])
    ensures forall k :: i + |r| <= k < |s| ==> IsJsSpace(s[k])
  {
    assert s[i] == r[0] && s[i + |r| - 1] == r[|r| - 1];
    forall k | 0 <= k < i
      ensures IsJsSpace(s[k])
    {
      assert s[..i][k] == s[k];
    }
    forall k | i + |r| <= k < |s|
      ensures IsJsSpace(s[k])
    {
      assert s[i + |r|..][k - i - |r|] == s[k];
    }
  }

  /** Whitespace on both sides of an empty slice is whitespace throughout. */
  lemma AllSpaceAround(s: string, i: int)
    requires 0 <= i <= |s| && AllSpace(s[..i]) && AllSpace(s[i..])
    ensures AllSpace(s)
  {
    forall k | 0 <= k < |s|
      ensures IsJsSpace(s[k])
    {
      if k < i {
        assert s[..i][k] == s[k];
      } else {
        assert s[i..][k - i] == s[k];
      }
    }
  }

  /** Trimming both ends leaves nothing exactly when the input is all
      whitespace; a non-empty result keeps the first kept character. */
  lemma TrimEmptyIffAllSpace(s: string)
    ensures var t := TrimStart(s); var r := TrimEnd(t);
      && (r == [] <==> AllSpace(s))
      && (|r| > 0 ==> r[0] == t[0])
  {
    var t := TrimStart(s);
    var r := TrimEnd(t);
    var k := |s| - |t|;
    if r == [] {
      assert t[0..] == t;
      assert s[..k] == s;
    } else {
      assert r[0] == t[0];
      assert s[k] == t[0];
      assert !AllSpace(s);
    }
  }
}

=== FILE: verification_upload.dfy ===
/**
 The verification upload page (src/pages/VerificationUpload.tsx): the auth
 check, file intake by drag-and-drop or the file picker, the submit guard,
 the inserted record, and how the insert's outcome is reported.
 */
module VerificationUpload {
  import opened Common
  import JsText

  /** A chosen file: name, MIME type and size in bytes. */
  datatype File = File(name: string, mimeType: string, size: nat)

  /** The `type` of a drag event reaching `handleDrag`. */
  datatype DragKind = DragEnter | DragOver | DragLeave | OtherDrag(name: string)

  /** The row inserted into `verification_uploads`. */
  datatype Record = Record(userId: string, fileUrl: string, description: string, status: string)

  datatype State = State(user: Option<User>, loading: bool, file: Option<File>, description: string, dragActive: bool)

  /** What the user does on the form. */
  datatype FormEvent =
    | Drag(kind: DragKind)                      // dragenter / dragover / dragleave
    | Drop(files: seq<File>)                    // drop, with the dropped file list
    | FileChosen(files: seq<File>)              // the file input's change event
    | RemoveFile                                // the Remove button
    | DescriptionChanged(text: string)          // typing in the description box
    | Submit                                    // the form is submitted
    | Skip                                      // Skip for Now

  datatype Event =
    | SessionChecked(session: Option<Session>)  // checkAuth's getSession settles
    | InsertResolved(outcome: Outcome)          // the insert settles
    | Form(action: FormEvent)                   // a user action on the form

  datatype Effect = Navigate(path: string) | ShowToast(toast: Toast) | Insert(record: Record)

  datatype Transition = Transition(next: State, effects: seq<Effect>)

  const PlaceholderFileUrl: string := "pending_upload"
  const DefaultDescription: string := "Verification certificate"
  const InvalidTypeToast: Toast := Toast("Invalid file type", "Please upload a PDF or image file", Destructive)
  const NoFileToast: Toast := Toast("No file selected", "Please select a certificate to upload", Destructive)
  const SuccessToast: Toast := Toast("Success!", "Your verification certificate has been submitted for review.", Default)

  /** The page before `checkAuth` settles: no user, nothing chosen. */
  const Initial: State := State(None, false, None, "", false)

  /** The file-type test: a PDF, or any `image/` type. */
  predicate Accepts(mimeType: string)
  {
    mimeType == "application/pdf" || JsText.StartsWith(mimeType, "image/")
  }

  /** A type is accepted exactly when it is the PDF type or has the
      `image/` prefix. */
  lemma AcceptsIff(mimeType: string)
    ensures Accepts(mimeType) <==> mimeType == "application/pdf" || "image/" <= mimeType
  {
    JsText.StartsWithIsPrefix(mimeType, "image/");
  }

  /** `handleDrag`: entering or hovering activates the drop zone, leaving
      deactivates it, any other event type leaves it as it was. */
  function OnDrag(active: bool, kind: DragKind): (r: bool)
    ensures (kind == DragEnter || kind == DragOver) ==> r
    ensures kind == DragLeave ==> !r
    ensures kind.OtherDrag? ==> r == active
  {
    match kind
    case DragEnter => true
    case DragOver => true
    case DragLeave => false
    case OtherDrag(_) => active
  }

  /** The drag flag after a run of drag events, one at a time. */
  function DragActiveAfter(active: bool, kinds: seq<DragKind>): bool
    decreases |kinds|
  {
    if |kinds| == 0 then active
    else DragActiveAfter(OnDrag(active, kinds[0]), kinds[1..])
  }

  /** The last event that decides the flag (all but unknown types). */
  function LastDeciding(kinds: seq<DragKind>): Option<DragKind>
    decreases |kinds|
  {
    if |kinds| == 0 then None
    else if !kinds[|kinds| - 1].OtherDrag? then Some(kinds[|kinds| - 1])
    else LastDeciding(kinds[..|kinds| - 1])
  }

  /** After any run of drag events the drop zone is active exactly when the
      last deciding event was an enter or an over; with no deciding event
      the flag is where it started. */
  lemma {:induction false} DragActiveIsLastDeciding(active: bool, kinds: seq<DragKind>)
    ensures DragActiveAfter(active, kinds)
      == (match LastDeciding(kinds) case None => active case Some(k) => k != DragLeave)
    decreases |kinds|
  {
    if |kinds| > 0 {
      var a := OnDrag(active, kinds[0]);
      var tail := kinds[1..];
      DragActiveIsLastDeciding(a, tail);
      if |tail| == 0 {
        assert kinds == [kinds[0]];
      } else {
        assert tail[|tail| - 1] == kinds[|kinds| - 1];
        assert tail[..|tail| - 1] == kinds[..|kinds| - 1][1..];
        LastDecidingCons(kinds);
      }
    }
  }

  /** Dropping the first event changes the last deciding one only when
      nothing after it decides. */
  lemma {:induction false} LastDecidingCons(kinds: seq<DragKind>)
    requires |kinds| > 0
    ensures LastDeciding(kinds)
      == (match LastDeciding(kinds[1..])
          case Some(k) => Some(k)
          case None => if kinds[0].OtherDrag? then None else Some(kinds[0]))
    decreases |kinds|
  {
    if |kinds| > 1 {
      var init := kinds[..|kinds| - 1];
      assert kinds[1..][..|kinds[1..]| - 1] == init[1..];
      assert kinds[1..][|kinds[1..]| - 1] == kinds[|kinds| - 1];
      if kinds[|kinds| - 1].OtherDrag? {
        LastDecidingCons(init);
        assert init[0] == kinds[0];
      }
    }
  }

  /** The shared tail of `handleDrop` and `handleFileChange`: only the first
      file of the list counts. An empty list changes nothing; an accepted
      type becomes the chosen file; a rejected one keeps the previous
      choice and raises exactly one invalid-type toast. */
  function Pick(s: State, files: seq<File>): (t: Transition)
    ensures |files| == 0 ==> t == Transition(s, [])
    ensures |files| > 0 && Accepts(files[0].mimeType) ==> t == Transition(s.(file := Some(files[0])), [])
    ensures |files| > 0 && !Accepts(files[0].mimeType) ==> t == Transition(s, [ShowToast(InvalidTypeToast)])
  {
    if |files| == 0 then Transition(s, [])
    else if Accepts(files[0].mimeType) then Transition(s.(file := Some(files[0])), [])
    else Transition(s, [ShowToast(InvalidTypeToast)])
  }

  /** `handleDrop`: the drop zone always deactivates, then the first
      dropped file is considered. */
  function OnDrop(s: State, files: seq<File>): (t: Transition)
    ensures !t.next.dragActive
    ensures t.next.file == (if |files| > 0 && Accepts(files[0].mimeType) then Some(files[0]) else s.file)
    ensures t.next.user == s.user && t.next.loading == s.loading && t.next.description == s.description
    ensures t.effects == (if |files| > 0 && !Accepts(files[0].mimeType) then [ShowToast(InvalidTypeToast)] else [])
  {
    Pick(s.(dragActive := false), files)
  }

  /** The record `handleSubmit` inserts: the user's id, the placeholder
      file URL, status pending, and the typed description or the default
      one when nothing was typed. */
  function NewRecord(userId: string, description: string): (r: Record)
    ensures r.userId == userId && r.fileUrl == "pending_upload" && r.status == "pending"
    ensures description != "" ==> r.description == description
    ensures description == "" ==> r.description == "Verification certificate"
  {
    Record(userId, PlaceholderFileUrl, OrElse(description, DefaultDescription), "pending")
  }

  /** The synchronous part of `handleSubmit`. No file: one toast, no insert,
      loading untouched. Otherwise loading starts and the record is sent. */
  function BeginSubmit(s: State, userId: string): (t: Transition)
    ensures s.file.None? ==> t == Transition(s, [ShowToast(NoFileToast)])
    ensures s.file.Some? ==>
      t.next == s.(loading := true) && t.effects == [Insert(NewRecord(userId, s.description))]
  {
    if s.file.None? then Transition(s, [ShowToast(NoFileToast)])
    else Transition(s.(loading := true), [Insert(NewRecord(userId, s.description))])
  }

  /** The toast for a failed insert: the provider's message, or a fixed
      text when it has none. */
  function FailureToast(message: string): (t: Toast)
    ensures t.title == "Upload failed" && t.variant == Destructive
    ensures t.description == (if message == "" then "Failed to submit verification" else message)
  {
    Toast("Upload failed", OrElse(message, "Failed to submit verification"), Destructive)
  }

  /** The rest of `handleSubmit` once the insert settles. Success clears the
      form, reports it, and goes to the dashboard; failure keeps the form
      and reports the error. Loading ends either way. */
  function FinishSubmit(s: State, outcome: Outcome): (t: Transition)
    ensures !t.next.loading && t.next.user == s.user && t.next.dragActive == s.dragActive
    ensures outcome.Ok? ==>
      t.next.file.None? && t.next.description == "" && t.effects == [ShowToast(SuccessToast), Navigate(DashboardPath)]
    ensures outcome.Err? ==>
      t.next.file == s.file && t.next.description == s.description && t.effects == [ShowToast(FailureToast(outcome.message))]
  {
    match outcome
    case Ok => Transition(s.(file := None, description := "", loading := false),
                          [ShowToast(SuccessToast), Navigate(DashboardPath)])
    case Err(m) => Transition(s.(loading := false), [ShowToast(FailureToast(m))])
  }

  /** The form exists (and so takes input) only once there is a user. */
  predicate Rendered(s: State)
  {
    s.user.Some?
  }

  /** The submit button is disabled while an insert is in flight or no
      file is chosen, and the form has no text field that could submit it
      some other way, so `handleSubmit` runs only with a file and not
      loading. */
  predicate CanSubmit(s: State)
  {
    !s.loading && s.file.Some?
  }

  /** A user action on the rendered form. Submitting does nothing while
      the submit button is disabled. */
  function OnForm(s: State, a: FormEvent): (t: Transition)
    requires Rendered(s)
    ensures a == Submit && !CanSubmit(s) ==> t == Transition(s, [])
    ensures a == Submit && CanSubmit(s) ==>
      t.next == s.(loading := true) && t.effects == [Insert(NewRecord(s.user.value.id, s.description))]
  {
    match a
    case Drag(kind) => Transition(s.(dragActive := OnDrag(s.dragActive, kind)), [])
    case Drop(files) => OnDrop(s, files)
    case FileChosen(files) => Pick(s, files)
    case RemoveFile => Transition(s.(file := None), [])
    case DescriptionChanged(text) => Transition(s.(description := text), [])
    case Submit => if CanSubmit(s) then BeginSubmit(s, s.user.value.id) else Transition(s, [])
    case Skip => Transition(s, [Navigate(DashboardPath)])
  }

  /** One event. Form actions are ignored while nothing is shown. */
  function Step(s: State, e: Event): (t: Transition)
  {
    match e
    case SessionChecked(None) => Transition(s, [Navigate(AuthPath)])
    case SessionChecked(Some(sn)) => Transition(s.(user := Some(sn.user)), [])
    case InsertResolved(outcome) => FinishSubmit(s, outcome)
    case Form(a) => if Rendered(s) then OnForm(s, a) else Transition(s, [])
  }

  function Run(s: State, evs: seq<Event>): (t: Transition)
    decreases |evs|
  {
    if |evs| == 0 then Transition(s, [])
    else
      var first := Step(s, evs[0]);
      var rest := Run(first.next, evs[1..]);
      Transition(rest.next, first.effects + rest.effects)
  }

  /** Each event reaches its handler: the auth check either sends the
      browser to the sign-in page or records the user, a settled insert is
      reported, and on the shown form every action goes to its handler. */
  lemma StepResponds(s: State, e: Event)
    ensures e == SessionChecked(None) ==> Step(s, e) == Transition(s, [Navigate(AuthPath)])
    ensures e.SessionChecked? && e.session.Some? ==>
      Step(s, e) == Transition(s.(user := Some(e.session.value.user)), [])
    ensures e.InsertResolved? ==> Step(s, e) == FinishSubmit(s, e.outcome)
    ensures Rendered(s) && e.Form? && e.action.Drag? ==>
      Step(s, e) == Transition(s.(dragActive := OnDrag(s.dragActive, e.action.kind)), [])
    ensures Rendered(s) && e.Form? && e.action.Drop? ==> Step(s, e) == OnDrop(s, e.action.files)
    ensures Rendered(s) && e.Form? && e.action.FileChosen? ==> Step(s, e) == Pick(s, e.action.files)
    ensures Rendered(s) && e == Form(RemoveFile) ==> Step(s, e) == Transition(s.(file := None), [])
    ensures Rendered(s) && e.Form? && e.action.DescriptionChanged? ==>
      Step(s, e) == Transition(s.(description := e.action.text), [])
    ensures Rendered(s) && e == Form(Submit) ==> Step(s, e) == OnForm(s, Submit)
  {
  }

  /** One drag event on the form per kind, in order. */
  function DragEvents(kinds: seq<DragKind>): (evs: seq<Event>)
    ensures |evs| == |kinds|
    ensures forall i :: 0 <= i < |kinds| ==> evs[i] == Form(Drag(kinds[i]))
    decreases |kinds|
  {
    if |kinds| == 0 then [] else [Form(Drag(kinds[0]))] + DragEvents(kinds[1..])
  }

  /** On the shown form a run of drag events moves only the drop zone's
      flag, exactly as `handleDrag` folds it, and has no effects. */
  lemma {:induction false} RunDragEvents(s: State, kinds: seq<DragKind>)
    requires Rendered(s)
    ensures Run(s, DragEvents(kinds)) == Transition(s.(dragActive := DragActiveAfter(s.dragActive, kinds)), [])
    decreases |kinds|
  {
    if |kinds| > 0 {
      var evs := DragEvents(kinds);
      assert evs[1..] == DragEvents(kinds[1..]);
      var first := Step(s, evs[0]);
      assert first == Transition(s.(dragActive := OnDrag(s.dragActive, kinds[0])), []);
      RunDragEvents(first.next, kinds[1..]);
    }
  }

  /** The page's drop zone after any run of drag events is active exactly
      when the last deciding event was an enter or an over; with none, it
      is as before. Nothing else on the page changes. */
  lemma DropZoneFollowsLastDrag(s: State, kinds: seq<DragKind>)
    requires Rendered(s)
    ensures Run(s, DragEvents(kinds)).next.dragActive
      == (match LastDeciding(kinds) case None => s.dragActive case Some(k) => k != DragLeave)
    ensures Run(s, DragEvents(kinds)).next.(dragActive := s.dragActive) == s
    ensures Run(s, DragEvents(kinds)).effects == []
  {
    RunDragEvents(s, kinds);
    DragActiveIsLastDeciding(s.dragActive, kinds);
  }

  /** Skipping always goes to the dashboard and changes nothing. */
  lemma SkipGoesToDashboard(s: State)
    requires Rendered(s)
    ensures Step(s, Form(Skip)) == Transition(s, [Navigate(DashboardPath)])
  {
  }

  /** The event carries a present session. */
  predicate HasSession(e: Event)
  {
    e.SessionChecked? && e.session.Some?
  }

  /** Without a session the page never gets a user: every form event is
      ignored, nothing is inserted, and the only effect is being sent to the
      sign-in page. (Insert results cannot arrive, as nothing was sent.) */
  lemma {:induction false} RunWithoutSession(s: State, evs: seq<Event>)
    requires s.user.None?
    requires forall i :: 0 <= i < |evs| ==> !HasSession(evs[i]) && !evs[i].InsertResolved?
    ensures Run(s, evs).next == s
    ensures forall e :: e in Run(s, evs).effects ==> e == Navigate(AuthPath)
    decreases |evs|
  {
    if |evs| > 0 {
      assert !HasSession(evs[0]) && !evs[0].InsertResolved?;
      RunWithoutSession(Step(s, evs[0]).next, evs[1..]);
    }
  }

  /** Every chosen file has an accepted type: intake keeps the invariant. */
  predicate FileAccepted(s: State)
  {
    s.file.Some? ==> Accepts(s.file.value.mimeType)
  }

  /** One event keeps the invariant, and any insert it sends is pending. */
  lemma StepKeepsFileAccepted(s: State, e: Event)
    requires FileAccepted(s)
    ensures FileAccepted(Step(s, e).next)
    ensures forall f :: f in Step(s, e).effects && f.Insert? ==> f.record.status == "pending"
  {
  }

  lemma {:induction false} RunKeepsFileAccepted(s: State, evs: seq<Event>)
    requires FileAccepted(s)
    ensures FileAccepted(Run(s, evs).next)
    ensures forall e :: e in Run(s, evs).effects && e.Insert? ==> e.record.status == "pending"
    decreases |evs|
  {
    if |evs| > 0 {
      var first := Step(s, evs[0]);
      StepKeepsFileAccepted(s, evs[0]);
      RunKeepsFileAccepted(first.next, evs[1..]);
    }
  }

  /** A submission that the provider accepts: one insert of the record,
      the success toast, the way to the dashboard, and a cleared form. */
  lemma SubmitAccepted(s: State)
    requires Rendered(s) && CanSubmit(s)
    ensures var t := Run(s, [Form(Submit), InsertResolved(Ok)]);
      && t.effects == [Insert(NewRecord(s.user.value.id, s.description)), ShowToast(SuccessToast), Navigate(DashboardPath)]
      && t.next == s.(file := None, description := "")
  {
    var submitted := OnForm(s, Submit);
    var settled := FinishSubmit(submitted.next, Ok);
    assert [Form(Submit), InsertResolved(Ok)][1..] == [InsertResolved(Ok)];
    assert Run(submitted.next, [InsertResolved(Ok)]) == Transition(settled.next, settled.effects + []);
  }

  /** A submission that the provider refuses leaves the page exactly as it
      was before the submit, after one insert and one failure toast. */
  lemma SubmitRefused(s: State, message: string)
    requires Rendered(s) && CanSubmit(s)
    ensures var t := Run(s, [Form(Submit), InsertResolved(Err(message))]);
      && t.effects == [Insert(NewRecord(s.user.value.id, s.description)), ShowToast(FailureToast(message))]
      && t.next == s
  {
    var submitted := OnForm(s, Submit);
    var settled := FinishSubmit(submitted.next, Err(message));
    assert [Form(Submit), InsertResolved(Err(message))][1..] == [InsertResolved(Err(message))];
    assert Run(submitted.next, [InsertResolved(Err(message))]) == Transition(settled.next, settled.effects + []);
  }
}

=== FILE: xp_badge.dfy ===
/**
 The level-up badge overlay (src/components/XPBadge.tsx): which of four
 badge tiers a level earns, and the `show` guard on rendering.
 */
module XPBadge {
  import opened Common

  /** The four badge tiers, lowest first. */
  datatype Tier = Beginner | RisingCoder | ExpertDeveloper | MasterCoder

  datatype Icon = Star | Zap | Award | Trophy

  /** What `getBadgeInfo` returns: icon, text colour class, title and
      background class. */
  datatype BadgeInfo = BadgeInfo(icon: Icon, color: string, title: string, bg: string)

  /** What the overlay shows when it is rendered. */
  datatype BadgeView = BadgeView(level: int, badge: BadgeInfo)

  /** Position of a tier in the ladder, 0 for the lowest. */
  function Rank(t: Tier): nat
  {
    match t
    case Beginner => 0
    case RisingCoder => 1
    case ExpertDeveloper => 2
    case MasterCoder => 3
  }

  /** The highest level of each of the three lower tiers. */
  const TierCeilings: seq<int> := [5, 10, 20]

  /** How many of `ceilings` the level has passed (is strictly above). */
  function CountPassed(level: int, ceilings: seq<int>): (n: nat)
    ensures n <= |ceilings|
  {
    if |ceilings| == 0 then 0
    else (if ceilings[0] < level then 1 else 0) + CountPassed(level, ceilings[1..])
  }

  /** `CountPassed` against the three tier ceilings, one ceiling at a time. */
  lemma CeilingsPassed(level: int)
    ensures CountPassed(level, TierCeilings)
      == (if 5 < level then 1 else 0) + (if 10 < level then 1 else 0) + (if 20 < level then 1 else 0)
  {
    var c := TierCeilings;
    assert c[1..] == [10, 20];
    assert c[1..][1..] == [20];
    assert c[1..][1..][1..] == [];
    assert CountPassed(level, [20]) == (if 20 < level then 1 else 0) + CountPassed(level, []);
    assert CountPassed(level, [10, 20]) == (if 10 < level then 1 else 0) + CountPassed(level, [20]);
    assert CountPassed(level, c) == (if 5 < level then 1 else 0) + CountPassed(level, [10, 20]);
  }

  /** The tier a level earns, read off the level ranges: every level up to
      5 (zero and negative levels included) is a beginner. */
  ghost predicate InTier(level: int, t: Tier)
  {
    match t
    case Beginner => level <= 5
    case RisingCoder => 6 <= level <= 10
    case ExpertDeveloper => 11 <= level <= 20
    case MasterCoder => 21 <= level
  }

  /** The tier chosen by `getBadgeInfo`'s chain of `<=` tests. Every
      integer level lies in exactly one tier's range, and the tier's rank is
      the number of tier ceilings the level has passed. */
  function TierOf(level: int): (t: Tier)
    ensures forall u :: InTier(level, u) <==> u == t
    ensures Rank(t) == CountPassed(level, TierCeilings)
  {
    CeilingsPassed(level);
    if level <= 5 then Beginner
    else if level <= 10 then RisingCoder
    else if level <= 20 then ExpertDeveloper
    else MasterCoder
  }

  /** Icon, colours and title of each tier. */
  function Info(t: Tier): BadgeInfo
  {
    match t
    case Beginner => BadgeInfo(Star, "text-yellow-400", "Beginner Badge", "bg-yellow-400/20")
    case RisingCoder => BadgeInfo(Zap, "text-blue-400", "Rising Coder", "bg-blue-400/20")
    case ExpertDeveloper => BadgeInfo(Award, "text-purple-400", "Expert Developer", "bg-purple-400/20")
    case MasterCoder => BadgeInfo(Trophy, "text-orange-400", "Master Coder", "bg-orange-400/20")
  }

  /** `getBadgeInfo(level)`: the title says which level range the level is
      in, for every integer level. */
  function GetBadgeInfo(level: int): (b: BadgeInfo)
    ensures b.title == "Beginner Badge" <==> level <= 5
    ensures b.title == "Rising Coder" <==> 6 <= level <= 10
    ensures b.title == "Expert Developer" <==> 11 <= level <= 20
    ensures b.title == "Master Coder" <==> 21 <= level
  {
    Info(TierOf(level))
  }

  /** Distinct tiers carry distinct titles, so the title identifies the tier. */
  lemma TitlesIdentifyTiers(t: Tier, u: Tier)
    ensures Info(t).title == Info(u).title <==> t == u
  {
  }

  /** A higher level never earns a lower tier. */
  lemma {:induction false} TierMonotone(a: int, b: int)
    requires a <= b
    ensures Rank(TierOf(a)) <= Rank(TierOf(b))
  {
    CountPassedMonotone(a, b, TierCeilings);
  }

  /** Passing ceilings is monotone in the level, for any list of ceilings. */
  lemma {:induction false} CountPassedMonotone(a: int, b: int, ceilings: seq<int>)
    requires a <= b
    ensures CountPassed(a, ceilings) <= CountPassed(b, ceilings)
  {
    if |ceilings| > 0 {
      CountPassedMonotone(a, b, ceilings[1..]);
    }
  }

  /** The component: nothing when `show` is false, whatever the level;
      otherwise the level and the badge for that level. */
  function Render(level: int, show: bool): (v: Option<BadgeView>)
    ensures v.None? <==> !show
    ensures v.Some? ==> v.value.level == level && v.value.badge == Info(TierOf(level))
  {
    if !show then None else Some(BadgeView(level, GetBadgeInfo(level)))
  }
}
